=== FILE: README.md ===
# NavStack navigation sheet core, modelled in Dafny

This project models `NavigationSheetCore`, the index-addressed navigation
orchestrator of NavStack. The orchestrator keeps three pieces of state: an
ordered list of pages, at most one active page, and a single in-flight flag
(`isRunning`). It raises four events: page attached, page detached,
navigating (previous, current) and navigated (previous, current). Its
operations are `AddAsync`, `RemoveAsync`, `RemoveAllAsync`, `ShowAsync(index)`
and `HideAsync`. Show and Hide apply the `NavigationAwaitOperation` policy
(`Sequential`, `Drop` or `Error`) when another navigation is in flight.

The model is functional. A `Sheet` value holds the list, the active page, the
flag and the trace of raised events. Each synchronous stretch of an
asynchronous operation is a pure step function. A step either ends the call
(`Done` or `Failed`) or stops at an `await` (`Waiting` for the flag under
`Sequential`, `ShowPending` or `HidePending` on the page hooks). The rest of
the call is a further step function: `ShowResume`/`HideResume` after a wait,
`ShowEnd`/`HideEnd` after the hooks. Other calls' steps may run in between, and
that is how overlapping navigation is expressed. Page hooks are never run.
Whether a hook's task completes or faults is an input of the step that awaits
it. `Show`, `Hide`, `Add`, `Remove` and `RemoveAll` are the calls run to their
end with nothing interleaved.

Modules:

- `Registry` (`registry.dfy`): nullable page references (`Option<Page>`, with
  `None` as null), whether a page has the attach/detach capability, and
  `RemoveFirst`, which is `List<T>.Remove`.
- `SheetCore` (`sheet_core.dfy`): the state, the events, the errors and the
  step functions of the five operations.
- `SheetProperties` (`sheet_properties.dfy`): lemmas that relate several calls.
  These cover the add/remove round trip, idempotence of Show, what
  overlapping navigations see, and two trace invariants kept by any sequence
  of calls.

Behaviour of the code that the model keeps, although a reader might not
expect it:

- Add rejects neither null nor a page that is already listed. Both are
  appended, so the list can hold duplicates and nulls. Add-then-remove of a
  non-null page that was not listed restores the list. Add-then-remove of
  null does not: Remove rejects null before it looks at the list, so the
  null entry stays. Add-then-remove of a listed page removes the older copy
  and keeps the new one at the end: `[a, b]` becomes `[b, a]`, while `[a]`
  and `[b, a]` come back unchanged.
- Remove of a page that is not listed throws `InvalidOperationException`;
  `NotRegistered` is that case.
- RemoveAll raises every detached event and starts every detach hook first.
  Only after that does it clear the active page and the list.
- The active page is not always a listed page. Remove does not clear the
  active page when it removes it.
- The navigated event of Show reads the active page again after the hooks
  finish. If RemoveAll ran in between, the event names no current page.
- Show on a null list entry (possible because Add accepts null) clears the
  active page and then fails with a null dereference. No event is raised.
  The entry differs from the active page, so there was a previous page, and
  its `OnNavigatedFrom` task (line 92) has already been started when the
  dereference at line 93 throws. That task is never awaited.

## Model

| member | source | states |
|---|---|---|
| Registry.HasLifecycle | src/NavStack/Assets/NavStack/Runtime/Internal/NavigationSheetCore.cs:26 | only a non-null page can have the attach/detach hooks; a null reference never does (the type test at lines 26, 42 and 55) |
| Registry.IndexOf | src/NavStack/Assets/NavStack/Runtime/Internal/NavigationSheetCore.cs:38 | the position found holds the page and no earlier position does |
| Registry.RemoveFirst | src/NavStack/Assets/NavStack/Runtime/Internal/NavigationSheetCore.cs:38 | list removal drops exactly the first equal entry and keeps the others in order; an absent page leaves the list as it was |
| Registry.RemoveFirstMultiset | src/NavStack/Assets/NavStack/Runtime/Internal/NavigationSheetCore.cs:38 | removing a listed page takes one copy of it out of the list and changes no other entry's count |
| Registry.RemoveFirstOfAppended | src/NavStack/Assets/NavStack/Runtime/Internal/NavigationSheetCore.cs:31-38 | appending a page that was not listed and then removing it gives back the original list |
| Registry.IndexOfIsFirst | src/NavStack/Assets/NavStack/Runtime/Internal/NavigationSheetCore.cs:38 | a position holding the page with no copy before it is the position the removal uses |
| Registry.RemoveFirstOfAppendedListed | src/NavStack/Assets/NavStack/Runtime/Internal/NavigationSheetCore.cs:31-38 | with the page already listed, append-then-remove gives the list with its first copy removed and the page at the end |
| SheetCore.Initial | src/NavStack/Assets/NavStack/Runtime/Internal/NavigationSheetCore.cs:11-21 | a new sheet has an empty list, no active page, the flag clear and no events raised |
| SheetCore.Busy | src/NavStack/Assets/NavStack/Runtime/Internal/NavigationSheetCore.cs:68-79 | a navigation that meets one in flight waits (Sequential), returns (Drop) or throws the in-transition error (Error), and never changes the sheet |
| SheetCore.AddBegin | src/NavStack/Assets/NavStack/Runtime/Internal/NavigationSheetCore.cs:25 | the attached event is raised before the insertion, so an observer of it sees the list as it was before the call, without the new entry |
| SheetCore.AddEnd | src/NavStack/Assets/NavStack/Runtime/Internal/NavigationSheetCore.cs:26-31 | the page is appended exactly when it lacks the attach hook or its attach hook completed; a faulted hook leaves the list alone |
| SheetCore.Add | src/NavStack/Assets/NavStack/Runtime/Internal/NavigationSheetCore.cs:23-32 | one attached event, then the page at the end of the list when the attach hook succeeds; null and duplicates are accepted; active page and flag untouched |
| SheetCore.Remove | src/NavStack/Assets/NavStack/Runtime/Internal/NavigationSheetCore.cs:34-46 | null throws the argument error and an unlisted page the invalid-operation error, both with nothing changed; otherwise the first occurrence is removed, one detached event follows, the active page is kept, and the call faults only on a faulted detach hook |
| SheetCore.SomeDetachFails | src/NavStack/Assets/NavStack/Runtime/Internal/NavigationSheetCore.cs:55-61 | the `WhenAll` can fault only when some entry has a detach hook; it cannot fault when every started hook completes or when no entry has a hook |
| SheetCore.DetachTrace | src/NavStack/Assets/NavStack/Runtime/Internal/NavigationSheetCore.cs:51-54 | one detached event per list entry, the i-th naming the i-th entry |
| SheetCore.RemoveAll | src/NavStack/Assets/NavStack/Runtime/Internal/NavigationSheetCore.cs:48-62 | the trace gains exactly one detached event per entry in list order; afterwards the list is empty and there is no active page; the flag is untouched; the call faults exactly when some started detach hook faults |
| SheetCore.ShowStart | src/NavStack/Assets/NavStack/Runtime/Internal/NavigationSheetCore.cs:64-80 | the list never changes; busy: the sheet is unchanged, the call never reaches the hooks, and only the Error policy throws the in-transition error; idle: the call never waits and is suspended on the hooks exactly when the flag stays set |
| SheetCore.ShowResume | src/NavStack/Assets/NavStack/Runtime/Internal/NavigationSheetCore.cs:72-73 | a Sequential waiter keeps waiting, with the sheet unchanged, exactly while the flag is set, never throws the in-transition error, and behaves as a fresh Sequential Show |
| SheetCore.ShowBegin | src/NavStack/Assets/NavStack/Runtime/Internal/NavigationSheetCore.cs:82-95 | an out-of-range index throws with the sheet unchanged and the flag cleared; showing the active page is a no-op; a null entry clears the active page and throws; otherwise the page becomes active and one navigating event (previous, page) is raised while the flag stays set; the list never changes |
| SheetCore.ShowEnd | src/NavStack/Assets/NavStack/Runtime/Internal/NavigationSheetCore.cs:97-104 | the navigated event is raised exactly when both hooks completed (a missing previous page counts as completed) and names the active page current at that moment; the flag ends clear on both paths |
| SheetCore.Show | src/NavStack/Assets/NavStack/Runtime/Internal/NavigationSheetCore.cs:64-105 | Show run to its end: policy outcome with nothing changed when busy; otherwise flag clear at the end, list unchanged, index error and no-op with the sheet unchanged, and on a real switch the page active with navigating then navigated (previous, page) exactly when the hooks succeed |
| SheetCore.HideStart | src/NavStack/Assets/NavStack/Runtime/Internal/NavigationSheetCore.cs:107-128 | no active page throws the invalid-operation error before the policy is consulted; the list never changes; a throw leaves the sheet unchanged and is either the no-active-page error or, under Error only, the in-transition error; the call waits exactly when a page is active, the flag is set and the policy is Sequential; it reaches the hook exactly when a page is active and the flag is clear |
| SheetCore.HideResume | src/NavStack/Assets/NavStack/Runtime/Internal/NavigationSheetCore.cs:111-121 | a Sequential Hide waiter never throws before its await, keeps waiting with the sheet unchanged exactly while the flag is set, and behaves as a fresh Sequential Hide exactly when a page is active: the active-page check is not repeated |
| SheetCore.HideBegin | src/NavStack/Assets/NavStack/Runtime/Internal/NavigationSheetCore.cs:130-139 | the active page is cleared and the list kept; with a previous page the navigating event (none, previous) is raised and the flag stays set; without one the call ends silently with the flag clear |
| SheetCore.HideEnd | src/NavStack/Assets/NavStack/Runtime/Internal/NavigationSheetCore.cs:140-147 | the navigated event (none, previous) is raised exactly when the outgoing hook completed; the flag ends clear on both paths |
| SheetCore.Hide | src/NavStack/Assets/NavStack/Runtime/Internal/NavigationSheetCore.cs:107-148 | Hide run to its end: no active page throws whatever the policy; busy defers to the policy with nothing changed; otherwise no active page afterwards, list kept, flag clear, navigating then (if the hook succeeded) navigated with the hidden page as current |
| SheetProperties.AddThenRemoveRestores | src/NavStack/Assets/NavStack/Runtime/Internal/NavigationSheetCore.cs:23-46 | adding a non-null, unlisted page whose attach hook succeeds (or that has none) and removing it restores the list and the active page, with exactly one attached then one detached event |
| SheetProperties.AddNullThenRemoveKeepsIt | src/NavStack/Assets/NavStack/Runtime/Internal/NavigationSheetCore.cs:23-36 | Add appends null with one attached event, and a following Remove of null throws the argument error with nothing changed, so the null stays listed |
| SheetProperties.AddListedThenRemoveMovesToEnd | src/NavStack/Assets/NavStack/Runtime/Internal/NavigationSheetCore.cs:23-41 | adding an already listed page and removing it leaves the list with its first copy removed and the page at the end, keeps the active page, and raises one attached then one detached event |
| SheetProperties.AddDuplicateThenRemoveReorders | src/NavStack/Assets/NavStack/Runtime/Internal/NavigationSheetCore.cs:23-41 | example: on a sheet listing `[a, b]`, adding `a` and removing it gives `[b, a]`, not the original list |
| SheetProperties.RemoveActiveLeavesItUnlisted | src/NavStack/Assets/NavStack/Runtime/Internal/NavigationSheetCore.cs:34-46 | removing the active page, when it is listed exactly once, keeps it active while it is no longer listed |
| SheetProperties.ShowTwiceIsShowOnce | src/NavStack/Assets/NavStack/Runtime/Internal/NavigationSheetCore.cs:86-87 | repeating a completed Show of the same index raises nothing and changes nothing |
| SheetProperties.ShowThenHide | src/NavStack/Assets/NavStack/Runtime/Internal/NavigationSheetCore.cs:84-147 | Show then Hide with succeeding hooks activates and deactivates the page, keeps the list, and raises the four navigation events in order |
| SheetProperties.ShowInFlightGatesOthers | src/NavStack/Assets/NavStack/Runtime/Internal/NavigationSheetCore.cs:68-128 | while a Show awaits its hooks the flag is set, and any second Show or Hide waits, drops or throws per its policy without changing the sheet |
| SheetProperties.HideInFlightFailsSecondHide | src/NavStack/Assets/NavStack/Runtime/Internal/NavigationSheetCore.cs:111-135 | while a Hide awaits its hook a second Hide throws the no-active-page error whatever its policy, even Drop |
| SheetProperties.SequentialShowRunsAfterInFlight | src/NavStack/Assets/NavStack/Runtime/Internal/NavigationSheetCore.cs:68-104 | a Sequential Show waits while a Show is in flight and afterwards runs on the settled state, where the page just shown is already active |
| SheetProperties.HideResumedWithoutActivePageIsSilent | src/NavStack/Assets/NavStack/Runtime/Internal/NavigationSheetCore.cs:111-143 | with no active page a fresh Hide throws but a Hide resumed after a Sequential wait returns silently with no event |
| SheetProperties.SecondQueuedHideIsSilent | src/NavStack/Assets/NavStack/Runtime/Internal/NavigationSheetCore.cs:111-147 | of two Hides queued behind a Show, the first hides the shown page and the second returns silently |
| SheetProperties.RemoveAllDuringShowChangesNavigated | src/NavStack/Assets/NavStack/Runtime/Internal/NavigationSheetCore.cs:58-99 | a RemoveAll during a Show's hooks makes the navigated event name no current page, although the navigating event named the shown page |
| SheetProperties.DetachTraceCounts | src/NavStack/Assets/NavStack/Runtime/Internal/NavigationSheetCore.cs:51-59 | RemoveAll raises as many detached events for a page as the list holds copies of it, and no attached event |
| SheetProperties.AddKeepsAccounted | src/NavStack/Assets/NavStack/Runtime/Internal/NavigationSheetCore.cs:23-32 | after Add every listed copy and every detached event of a page is still matched by an attached event of it |
| SheetProperties.AccountedAfterDetach | src/NavStack/Assets/NavStack/Runtime/Internal/NavigationSheetCore.cs:38-41 | taking one listed copy of a page out of the list while recording its detached event keeps every page's counts matched |
| SheetProperties.RemoveKeepsAccounted | src/NavStack/Assets/NavStack/Runtime/Internal/NavigationSheetCore.cs:34-46 | Remove keeps every listed copy and detached event matched by an attached event |
| SheetProperties.RemoveAllKeepsAccounted | src/NavStack/Assets/NavStack/Runtime/Internal/NavigationSheetCore.cs:48-62 | RemoveAll keeps every detached event matched by an attached event |
| SheetProperties.ShowBeginKeepsAccounted | src/NavStack/Assets/NavStack/Runtime/Internal/NavigationSheetCore.cs:86-90 | the page Show makes active is one that was attached |
| SheetProperties.ShowEndKeepsAccounted | src/NavStack/Assets/NavStack/Runtime/Internal/NavigationSheetCore.cs:97-104 | finishing a Show keeps lifecycle events matched |
| SheetProperties.HideBeginKeepsAccounted | src/NavStack/Assets/NavStack/Runtime/Internal/NavigationSheetCore.cs:130-139 | starting a Hide keeps lifecycle events matched |
| SheetProperties.HideEndKeepsAccounted | src/NavStack/Assets/NavStack/Runtime/Internal/NavigationSheetCore.cs:140-147 | finishing a Hide keeps lifecycle events matched |
| SheetProperties.ShowBeginKeepsBalanced | src/NavStack/Assets/NavStack/Runtime/Internal/NavigationSheetCore.cs:89-95 | a Show that reaches its await has just raised navigating (previous, new active page) and leaves every navigated event after its navigating event |
| SheetProperties.ShowEndKeepsBalanced | src/NavStack/Assets/NavStack/Runtime/Internal/NavigationSheetCore.cs:97-99 | with nothing interleaved, the navigated event of a Show repeats the navigating event just before it |
| SheetProperties.ShowKeepsQuiescent | src/NavStack/Assets/NavStack/Runtime/Internal/NavigationSheetCore.cs:64-105 | a Show run to its end on a sheet at rest leaves it at rest: flag clear, navigated events paired, lifecycle events matched |
| SheetProperties.HideKeepsQuiescent | src/NavStack/Assets/NavStack/Runtime/Internal/NavigationSheetCore.cs:107-148 | a Hide run to its end on a sheet at rest leaves it at rest |
| SheetProperties.RemoveAllKeepsQuiescent | src/NavStack/Assets/NavStack/Runtime/Internal/NavigationSheetCore.cs:48-62 | RemoveAll on a sheet at rest leaves it at rest |
| SheetProperties.AddKeepsQuiescent | src/NavStack/Assets/NavStack/Runtime/Internal/NavigationSheetCore.cs:23-32 | Add on a sheet at rest leaves it at rest, whether the attach hook succeeds or faults |
| SheetProperties.RemoveKeepsQuiescent | src/NavStack/Assets/NavStack/Runtime/Internal/NavigationSheetCore.cs:34-46 | Remove on a sheet at rest leaves it at rest, on every path including the argument and not-listed errors |
| SheetProperties.ApplyKeepsQuiescent | src/NavStack/Assets/NavStack/Runtime/Internal/NavigationSheetCore.cs:23-148 | every operation, run to its end on a sheet at rest, leaves it at rest |
| SheetProperties.RunKeepsQuiescent | src/NavStack/Assets/NavStack/Runtime/Internal/NavigationSheetCore.cs:23-148 | any sequence of operations, each run to its end, keeps a sheet at rest |
| SheetProperties.InitialIsQuiescent | src/NavStack/Assets/NavStack/Runtime/Internal/NavigationSheetCore.cs:10-21 | a new sheet is at rest: empty list, no active page, flag clear, no events |
| SheetProperties.OverlappedShowUnbalancesTrace | src/NavStack/Assets/NavStack/Runtime/Internal/NavigationSheetCore.cs:58-99 | starting from a sheet at rest, a RemoveAll that overlaps a Show leaves a navigated event that does not repeat its navigating event |

## Left out

- Cancellation tokens are not modelled. A cancelled hook shows up only as a faulted hook. A `Sequential` wait that is cancelled is not modelled at all: the waiter simply never resumes.
- Hooks that throw synchronously, before returning a task, are not modelled. Every hook failure is a faulted task observed at the await, so in Show the navigating event is always raised before the failure surfaces.
- Event observers are not modelled. They cannot throw, and they cannot call back into the sheet while an event is being raised.
- `NavigationContext` is not modelled beyond its `AwaitOperation`. Its copy (`with { }`) and the data it carries for the hooks are opaque.
- Remove is one uninterrupted step. Its only await comes after every state change, so nothing another call could observe is lost.
- Add is split at its await (`AddBegin`/`AddEnd`), but there is no interleaving lemma about calls that run between the two halves.
- SheetCore.RemoveAll: reports a single `HookFailed` when any detach hook faults. It does not model which exception `WhenAll` surfaces when several fault, nor when each hook finishes.
- SheetCore.Show: reports a single `HookFailed` when either navigation hook faults. It does not model which of the two exceptions surfaces when both fault.
- The order in which several `Sequential` waiters wake is not fixed. Each waiter's resume step may be applied in any order, and the lemmas cover the orders they name.
- Page equality is one datatype equality. The code mixes two: `pages.Remove` (line 38) uses the page's `Equals`, which a page class may override, while Show's no-op test (line 87) and the null checks compare references. The model agrees with the code only for pages whose `Equals` is reference equality.
- A page hook that calls back into the sheet during its synchronous part is not modelled. Examples are an `OnNavigatedTo` that calls `RemoveAllAsync` before it returns its task (between lines 93 and 95), or an `OnAttached` that calls into the sheet (line 28). Such calls can only be interleaved at the awaits, where the model places them.
- The list index is an unbounded integer. The list can never come close to the 32-bit limit, so nothing is lost.
- The stack orchestrator (`NavigationStackCore`, Push/Pop) is not part of this model.
- The Unity component wrapper `NavigationSheet` and the `NavigationStackExtensions` helpers are not part of this model. They instantiate and destroy engine objects, load and unload resources, and forward calls.

=== FILE: registry.dfy ===
/** Page references and the ordered page list of a navigation sheet.

    A page is an object identified by reference. The C# reference may be null,
    so a reference is an `Option<Page>` whose `None` is null. The list keeps
    insertion order and, because nothing rejects them, may hold duplicates and
    null entries. Removal follows `List<T>.Remove`: the first equal entry goes.
 */
module Registry {

  /** A value that may be absent; for page references, absence is C#'s null. */
  datatype Option<+T> = None | Some(value: T)

  /** A page object. `id` is its identity; `lifecycle` says whether it also
      implements the attach/detach capability (`IPageLifecycleEvent`). */
  datatype Page = Page(id: nat, lifecycle: bool)

  /** A possibly-null `IPage` reference. */
  type Ref = Option<Page>

  /** The `page is IPageLifecycleEvent` test. A type test on null is false,
      so only a real page can carry the attach/detach hooks. */
  predicate HasLifecycle(x: Ref)
    ensures x == None ==> !HasLifecycle(x)
  {
    x.Some? && x.value.lifecycle
  }

  /** Position of the first occurrence of `x` in `s`. */
  function IndexOf<T(==)>(s: seq<T>, x: T): (i: nat)
    requires x in s
    ensures i < |s| && s[i] == x
    ensures x !in s[..i]
  {
    if s[0] == x then 0
    else
      var j := IndexOf(s[1..], x);
      assert s[..j + 1] == [s[0]] + s[1..][..j];
      j + 1
  }

  /** A position holding `x` with no `x` before it is the one IndexOf finds. */
  lemma {:induction false} IndexOfIsFirst<T>(s: seq<T>, x: T, k: nat)
    requires k < |s| && s[k] == x && x !in s[..k]
    ensures IndexOf(s, x) == k
  {
    if k > 0 {
      assert s[..k][0] == s[0];
      assert s[1..][..k - 1] == s[1..k];
      assert s[1..k] == s[..k][1..];
      IndexOfIsFirst(s[1..], x, k - 1);
    }
  }

  /** Cutting position `j` out of the tail is cutting `j + 1` out of the list. */
  lemma SplitAfterHead<T>(s: seq<T>, j: nat)
    requires j + 1 < |s|
    ensures [s[0]] + (s[1..][..j] + s[1..][j + 1..]) == s[..j + 1] + s[j + 2..]
  {
    assert s[1..][..j] == s[1..j + 1];
    assert s[1..][j + 1..] == s[j + 2..];
    assert [s[0]] + s[1..j + 1] == s[..j + 1];
  }

  /** `List<T>.Remove`: drops the first occurrence of `x`, if there is one. */
  function RemoveFirst<T(==)>(s: seq<T>, x: T): (r: seq<T>)
    ensures x !in s ==> r == s
    ensures x in s ==> r == s[..IndexOf(s, x)] + s[IndexOf(s, x) + 1..]
  {
    if x !in s then s
    else if s[0] == x then s[1..]
    else
      var rest := RemoveFirst(s[1..], x);
      var j := IndexOf(s[1..], x);
      assert IndexOf(s, x) == j + 1;
      SplitAfterHead(s, j);
      [s[0]] + rest
  }

  /** Removing a present element takes exactly one copy of it out of the
      list's multiset and leaves every other element's count alone. */
  lemma RemoveFirstMultiset<T>(s: seq<T>, x: T)
    requires x in s
    ensures multiset(RemoveFirst(s, x)) == multiset(s) - multiset{x}
    ensures |RemoveFirst(s, x)| == |s| - 1
  {
    var i := IndexOf(s, x);
    assert s == s[..i] + [x] + s[i + 1..];
    calc {
      multiset(s);
      multiset(s[..i]) + multiset{x} + multiset(s[i + 1..]);
      multiset(s[..i] + s[i + 1..]) + multiset{x};
    }
  }

  /** Appending a new element and then removing it restores the list. */
  lemma {:induction false} RemoveFirstOfAppended<T>(s: seq<T>, x: T)
    requires x !in s
    ensures RemoveFirst(s + [x], x) == s
  {
    var i := IndexOf(s + [x], x);
    if i < |s| {
      assert false;
    }
    assert (s + [x])[..i] == s;
  }

  /** With the element already present, appending and then removing it takes
      out the OLDER copy: the result is the list with its first copy removed
      and the new copy at the end. */
  lemma RemoveFirstOfAppendedListed<T>(s: seq<T>, x: T)
    requires x in s
    ensures RemoveFirst(s + [x], x) == RemoveFirst(s, x) + [x]
  {
    var i := IndexOf(s, x);
    var u := s + [x];
    assert u[..i] == s[..i];
    IndexOfIsFirst(u, x, i);
    calc {
      RemoveFirst(u, x);
      u[..i] + u[i + 1..];
      { assert u[i + 1..] == s[i + 1..] + [x]; }
      s[..i] + (s[i + 1..] + [x]);
      (s[..i] + s[i + 1..]) + [x];
      RemoveFirst(s, x) + [x];
    }
  }
}

=== FILE: sheet_core.dfy ===
/** The navigation sheet: an ordered page list, at most one active page, a
    single in-flight flag and the ordered trace of the four events it raises.

    Every public operation of the sheet is asynchronous. Its synchronous
    stretches become pure step functions from one `Sheet` to a `Step`; a step
    that stops at an `await` returns the state at that moment together with
    the locals the rest of the call needs, and the rest of the call is a
    further step function. Page hooks are not run: their outcome (completed or
    faulted) is an input of the step that awaits them. Between two steps of one
    call, steps of other calls may run, which is how overlapping navigation is
    modelled.
 */
module SheetCore {
  import opened Registry

  /** `NavigationAwaitOperation`: what a navigation does when another one is in flight. */
  datatype AwaitOperation = Sequential | Drop | Error

  /** The exceptions the sheet's operations throw. */
  datatype NavError =
    | ArgumentNull      // ArgumentNullException: RemoveAsync(null)
    | NotRegistered     // InvalidOperationException: RemoveAsync of a page not in the list
    | InTransition      // InvalidOperationException: the Error policy met an in-flight navigation
    | NoActivePage      // InvalidOperationException: HideAsync with no active page
    | IndexOutOfRange   // ArgumentOutOfRangeException: the list indexer in ShowAsync
    | NullPage          // NullReferenceException: ShowAsync selected a null entry
    | HookFailed        // a page hook's task faulted; its exception propagates

  /** The four events, in the order they were raised. */
  datatype Event =
    | Attached(page: Ref)
    | Detached(page: Ref)
    | Navigating(prev: Ref, cur: Ref)
    | Navigated(prev: Ref, cur: Ref)

  /** The fields of `NavigationSheetCore`, plus the events raised so far. */
  datatype Sheet = Sheet(pages: seq<Ref>, active: Ref, running: bool, trace: seq<Event>)

  /** A freshly constructed sheet: no pages, no active page, nothing in
      flight, no events raised. */
  function Initial(): (s: Sheet)
    ensures s.pages == [] && s.active == None && !s.running && s.trace == []
  {
    Sheet([], None, false, [])
  }

  /** Where a call stands after one step. */
  datatype Step =
    | Done(sheet: Sheet)                   // returned normally
    | Failed(error: NavError, sheet: Sheet) // threw; `sheet` is what it left behind
    | Waiting(sheet: Sheet)                // suspended in `WaitWhile(() => isRunning)`
    | ShowPending(sheet: Sheet, prev: Ref) // ShowAsync suspended on both navigation hooks
    | HidePending(sheet: Sheet, hidden: Page) // HideAsync suspended on the outgoing page's hook

  /** The `switch (AwaitOperation)` taken when a navigation finds another one
      in flight: wait for it, return at once, or throw. None of the three
      touches the sheet. */
  function Busy(s: Sheet, op: AwaitOperation): (r: Step)
    ensures r.sheet == s
    ensures r.Waiting? <==> op == Sequential
    ensures r.Done? <==> op == Drop
    ensures r.Failed? <==> op == Error
    ensures r.Failed? ==> r.error == InTransition
  {
    match op
    case Sequential => Waiting(s)
    case Drop => Done(s)
    case Error => Failed(InTransition, s)
  }

  // ---------------------------------------------------------------- AddAsync

  /** AddAsync up to its await: the attached event is raised before the
      insertion, so an observer of it sees the list as it was before the
      call, without the new entry. */
  function AddBegin(s: Sheet, p: Ref): (r: Sheet)
    ensures r.pages == s.pages && r.active == s.active && r.running == s.running
    ensures |r.trace| == |s.trace| + 1 && r.trace[..|s.trace|] == s.trace
    ensures r.trace[|s.trace|] == Attached(p)
  {
    s.(trace := s.trace + [Attached(p)])
  }

  /** AddAsync after its await: a faulted `OnAttached` skips the insertion. */
  function AddEnd(s: Sheet, p: Ref, attachOk: bool): (r: Step)
    ensures r.Done? || r.Failed?
    ensures r.sheet.active == s.active && r.sheet.running == s.running && r.sheet.trace == s.trace
    ensures r.Done? <==> !HasLifecycle(p) || attachOk
    ensures r.Done? ==> r.sheet.pages == s.pages + [p]
    ensures r.Failed? ==> r.error == HookFailed && r.sheet.pages == s.pages
  {
    if HasLifecycle(p) && !attachOk then Failed(HookFailed, s)
    else Done(s.(pages := s.pages + [p]))
  }

  /** AddAsync, uninterrupted. Neither null nor an already present page is
      rejected: both are appended. */
  function Add(s: Sheet, p: Ref, attachOk: bool): (r: Step)
    ensures r.Done? || r.Failed?
    ensures r.sheet.active == s.active && r.sheet.running == s.running
    ensures r.sheet.trace == s.trace + [Attached(p)]
    ensures r.Done? <==> !HasLifecycle(p) || attachOk
    ensures r.Done? ==> r.sheet.pages == s.pages + [p]
    ensures r.Failed? ==> r.error == HookFailed && r.sheet.pages == s.pages
  {
    AddEnd(AddBegin(s, p), p, attachOk)
  }

  // ------------------------------------------------------------- RemoveAsync

  /** RemoveAsync, uninterrupted: argument check, removal of the first equal
      entry, then the detached event, then the `OnDetached` hook. The active
      page is left alone even when it is the page removed. */
  function Remove(s: Sheet, p: Ref, detachOk: bool): (r: Step)
    ensures p.None? ==> r == Failed(ArgumentNull, s)
    ensures p.Some? && p !in s.pages ==> r == Failed(NotRegistered, s)
    ensures p.Some? && p in s.pages ==>
      r.sheet.pages == s.pages[..IndexOf(s.pages, p)] + s.pages[IndexOf(s.pages, p) + 1..]
    ensures p.Some? && p in s.pages ==>
      r.sheet.active == s.active && r.sheet.running == s.running && r.sheet.trace == s.trace + [Detached(p)]
    ensures p.Some? && p in s.pages ==> (r.Done? <==> !HasLifecycle(p) || detachOk)
    ensures p.Some? && p in s.pages && r.Failed? ==> r.error == HookFailed
  {
    if p.None? then Failed(ArgumentNull, s)
    else if p !in s.pages then Failed(NotRegistered, s)
    else
      var rest := RemoveFirst(s.pages, p);
      var s1 := s.(pages := rest, trace := s.trace + [Detached(p)]);
      if HasLifecycle(p) && !detachOk then Failed(HookFailed, s1) else Done(s1)
  }

  // ---------------------------------------------------------- RemoveAllAsync

  /** One detached event per list entry, in list order. */
  function DetachTrace(ps: seq<Ref>): (r: seq<Event>)
    ensures |r| == |ps|
    ensures forall i :: 0 <= i < |ps| ==> r[i] == Detached(ps[i])
  {
    if |ps| == 0 then [] else [Detached(ps[0])] + DetachTrace(ps[1..])
  }

  /** Whether some started `OnDetached` task faults; `detachOk(i)` is the
      outcome of the hook started for the i-th entry. */
  predicate SomeDetachFails(ps: seq<Ref>, detachOk: nat -> bool)
    ensures SomeDetachFails(ps, detachOk) ==> exists i :: 0 <= i < |ps| && HasLifecycle(ps[i])
    ensures (forall i :: 0 <= i < |ps| ==> detachOk(i)) ==> !SomeDetachFails(ps, detachOk)
    ensures (forall i :: 0 <= i < |ps| ==> !HasLifecycle(ps[i])) ==> !SomeDetachFails(ps, detachOk)
  {
    exists i | 0 <= i < |ps| :: HasLifecycle(ps[i]) && !detachOk(i)
  }

  /** RemoveAllAsync: every entry's detached event is raised and its hook
      started, and only then are the active page and the list cleared; the
      returned `WhenAll` faults when any started hook faults. The in-flight
      flag is neither consulted nor changed. */
  function RemoveAll(s: Sheet, detachOk: nat -> bool): (r: Step)
    ensures r.Done? || (r.Failed? && r.error == HookFailed)
    ensures r.Failed? <==> exists i :: 0 <= i < |s.pages| && HasLifecycle(s.pages[i]) && !detachOk(i)
    ensures r.sheet.pages == [] && r.sheet.active == None && r.sheet.running == s.running
    ensures |r.sheet.trace| == |s.trace| + |s.pages| && r.sheet.trace[..|s.trace|] == s.trace
    ensures forall i :: 0 <= i < |s.pages| ==> r.sheet.trace[|s.trace| + i] == Detached(s.pages[i])
  {
    var s1 := Sheet([], None, s.running, s.trace + DetachTrace(s.pages));
    if SomeDetachFails(s.pages, detachOk) then Failed(HookFailed, s1) else Done(s1)
  }

  // --------------------------------------------------------------- ShowAsync

  /** ShowAsync from its entry to its first suspension or its end. */
  function ShowStart(s: Sheet, index: int, op: AwaitOperation): (r: Step)
    ensures r.sheet.pages == s.pages
    ensures s.running ==> r == Busy(s, op)
    ensures s.running ==> r.sheet == s && !r.ShowPending?
    ensures !s.running ==> r == ShowBegin(s, index)
    ensures !s.running ==> !r.Waiting? && (r.ShowPending? <==> r.sheet.running)
    ensures r.Failed? && r.error == InTransition <==> s.running && op == Error
  {
    if s.running then Busy(s, op) else ShowBegin(s, index)
  }

  /** A ShowAsync suspended under the Sequential policy polls the flag again:
      it keeps waiting while a navigation is in flight and otherwise runs its
      body without consulting the policy again. */
  function ShowResume(s: Sheet, index: int): (r: Step)
    ensures r.sheet.pages == s.pages
    ensures r.Waiting? <==> s.running
    ensures r.Waiting? ==> r.sheet == s
    ensures !(r.Failed? && r.error == InTransition)
    ensures !s.running ==> r == ShowBegin(s, index)
    ensures r == ShowStart(s, index, Sequential)
  {
    if s.running then Waiting(s) else ShowBegin(s, index)
  }

  /** ShowAsync's body up to `await UniTask.WhenAll`: set the flag, look the
      page up, skip when it is already active, swap the active page, start both
      hooks and raise the navigating event. A throw or return before the await
      runs the `finally` and so clears the flag. On a null entry the active
      page is already cleared, and the previous page's `OnNavigatedFrom` has
      already been started when the null dereference throws; that task is
      never awaited, and its outcome is not modelled. */
  function ShowBegin(s: Sheet, index: int): (r: Step)
    ensures r.Done? || r.Failed? || r.ShowPending?
    ensures r.sheet.pages == s.pages
    ensures r.ShowPending? <==> r.sheet.running
    ensures !(0 <= index < |s.pages|) ==> r == Failed(IndexOutOfRange, s.(running := false))
    ensures 0 <= index < |s.pages| && s.pages[index] == s.active ==> r == Done(s.(running := false))
    ensures 0 <= index < |s.pages| && s.pages[index] != s.active && s.pages[index].None? ==>
      r == Failed(NullPage, s.(active := None, running := false))
    ensures 0 <= index < |s.pages| && s.pages[index] != s.active && s.pages[index].Some? ==>
      && r.ShowPending? && r.prev == s.active
      && r.sheet.active == s.pages[index]
      && r.sheet.trace == s.trace + [Navigating(s.active, s.pages[index])]
  {
    if !(0 <= index < |s.pages|) then Failed(IndexOutOfRange, s.(running := false))
    else
      var page := s.pages[index];
      if s.active == page then Done(s.(running := false))
      else if page.None? then Failed(NullPage, s.(active := None, running := false))
      else ShowPending(s.(active := page, running := true, trace := s.trace + [Navigating(s.active, page)]), s.active)
  }

  /** ShowAsync after `await UniTask.WhenAll`: when both hooks completed (the
      outgoing one counts as completed when there was no previous page) the
      navigated event is raised with the active page as it is NOW; the
      `finally` clears the flag on both paths. */
  function ShowEnd(s: Sheet, prev: Ref, fromOk: bool, toOk: bool): (r: Step)
    ensures r.Done? || (r.Failed? && r.error == HookFailed)
    ensures r.sheet.pages == s.pages && r.sheet.active == s.active && !r.sheet.running
    ensures r.Done? <==> (prev.None? || fromOk) && toOk
    ensures r.Done? ==> r.sheet.trace == s.trace + [Navigated(prev, s.active)]
    ensures r.Failed? ==> r.sheet.trace == s.trace
  {
    if (prev.None? || fromOk) && toOk then Done(s.(running := false, trace := s.trace + [Navigated(prev, s.active)]))
    else Failed(HookFailed, s.(running := false))
  }

  /** ShowAsync run to its end with nothing interleaved. While another
      navigation is in flight the policy decides and nothing changes;
      otherwise the call ends with the flag cleared on every path, the list
      untouched, and events only when the active page really changes. */
  function Show(s: Sheet, index: int, op: AwaitOperation, fromOk: bool, toOk: bool): (r: Step)
    ensures r.sheet.pages == s.pages
    ensures s.running ==> r == Busy(s, op)
    ensures !s.running ==> (r.Done? || r.Failed?) && !r.sheet.running
    ensures !s.running && !(0 <= index < |s.pages|) ==> r == Failed(IndexOutOfRange, s)
    ensures !s.running && 0 <= index < |s.pages| && s.pages[index] == s.active ==> r == Done(s)
    ensures !s.running && 0 <= index < |s.pages| && s.pages[index] != s.active && s.pages[index].None? ==>
      r == Failed(NullPage, s.(active := None))
    ensures !s.running && 0 <= index < |s.pages| && s.pages[index] != s.active && s.pages[index].Some? ==>
      && var page := s.pages[index];
      && var ok := (s.active.None? || fromOk) && toOk;
      && r.sheet.active == page
      && (r.Done? <==> ok)
      && (r.Failed? ==> r.error == HookFailed)
      && r.sheet.trace == s.trace + [Navigating(s.active, page)] + (if ok then [Navigated(s.active, page)] else [])
  {
    match ShowStart(s, index, op)
    case ShowPending(s1, prev) => ShowEnd(s1, prev, fromOk, toOk)
    case r => r
  }

  // --------------------------------------------------------------- HideAsync

  /** HideAsync from its entry to its first suspension or its end. The
      active-page check comes before the policy switch. */
  function HideStart(s: Sheet, op: AwaitOperation): (r: Step)
    ensures r.sheet.pages == s.pages
    ensures s.active.None? ==> r == Failed(NoActivePage, s)
    ensures s.active.Some? && s.running ==> r == Busy(s, op)
    ensures s.active.Some? && !s.running ==> r == HideBegin(s)
    ensures r.Failed? ==> r.sheet == s
    ensures r.Failed? ==> r.error == NoActivePage || (r.error == InTransition && op == Error)
    ensures r.Waiting? <==> s.active.Some? && s.running && op == Sequential
    ensures r.HidePending? <==> s.active.Some? && !s.running
  {
    if s.active.None? then Failed(NoActivePage, s)
    else if s.running then Busy(s, op)
    else HideBegin(s)
  }

  /** A HideAsync suspended under the Sequential policy polls the flag again;
      the active-page check is not repeated. */
  function HideResume(s: Sheet): (r: Step)
    ensures r.sheet.pages == s.pages
    ensures !r.Failed?
    ensures r.Waiting? <==> s.running
    ensures r.Waiting? ==> r.sheet == s
    ensures !s.running ==> r == HideBegin(s)
    ensures r == HideStart(s, Sequential) <==> s.active.Some?
  {
    if s.running then Waiting(s) else HideBegin(s)
  }

  /** HideAsync's body up to its await: set the flag, clear the active page
      and, if there was one, raise the navigating event. With no previous page
      the body does nothing further and the `finally` clears the flag. */
  function HideBegin(s: Sheet): (r: Step)
    ensures r.Done? || r.HidePending?
    ensures r.sheet.pages == s.pages && r.sheet.active == None
    ensures s.active.None? ==> r == Done(s.(running := false))
    ensures s.active.Some? ==>
      && r == HidePending(r.sheet, s.active.value)
      && r.sheet.running
      && r.sheet.trace == s.trace + [Navigating(None, s.active)]
  {
    match s.active
    case None => Done(s.(running := false))
    case Some(p) => HidePending(s.(active := None, running := true, trace := s.trace + [Navigating(None, Some(p))]), p)
  }

  /** HideAsync after awaiting `OnNavigatedFrom`: the navigated event is raised
      when the hook completed; the `finally` clears the flag on both paths. */
  function HideEnd(s: Sheet, prev: Page, fromOk: bool): (r: Step)
    ensures r.Done? || (r.Failed? && r.error == HookFailed)
    ensures r.sheet.pages == s.pages && r.sheet.active == s.active && !r.sheet.running
    ensures r.Done? <==> fromOk
    ensures r.Done? ==> r.sheet.trace == s.trace + [Navigated(None, Some(prev))]
    ensures r.Failed? ==> r.sheet.trace == s.trace
  {
    if fromOk then Done(s.(running := false, trace := s.trace + [Navigated(None, Some(prev))]))
    else Failed(HookFailed, s.(running := false))
  }

  /** HideAsync run to its end with nothing interleaved. With no active page
      it throws whatever the policy; otherwise, when nothing is in flight, it
      clears the active page, keeps the page in the list and raises the
      navigating and (if the hook completed) the navigated event. */
  function Hide(s: Sheet, op: AwaitOperation, fromOk: bool): (r: Step)
    ensures r.sheet.pages == s.pages
    ensures s.active.None? ==> r == Failed(NoActivePage, s)
    ensures s.active.Some? && s.running ==> r == Busy(s, op)
    ensures s.active.Some? && !s.running ==>
      && r.sheet.active == None && !r.sheet.running
      && (r.Done? <==> fromOk)
      && (r.Failed? ==> r.error == HookFailed)
      && r.sheet.trace == s.trace + [Navigating(None, s.active)] + (if fromOk then [Navigated(None, s.active)] else [])
  {
    match HideStart(s, op)
    case HidePending(s1, prev) => HideEnd(s1, prev, fromOk)
    case r => r
  }
}

=== FILE: sheet_properties.dfy ===
/** Properties that relate several calls on one navigation sheet: round trips,
    idempotence, what overlapping navigations see of each other, and two
    invariants of the event trace that every call keeps.
 */
module SheetProperties {
  import opened Registry
  import opened SheetCore

  // ------------------------------------------------------------- Add/Remove

  /** Adding a non-null page that is not yet listed and whose attach hook
      succeeds (or that has none), and removing it again, restores the list,
      leaves the active page alone and raises exactly one attached and then
      one detached event. */
  lemma AddThenRemoveRestores(s: Sheet, p: Page, attachOk: bool, detachOk: bool)
    requires Some(p) !in s.pages
    requires !p.lifecycle || attachOk
    ensures Add(s, Some(p), attachOk).Done?
    ensures
      var r := Remove(Add(s, Some(p), attachOk).sheet, Some(p), detachOk);
      && r.sheet.pages == s.pages
      && r.sheet.active == s.active
      && r.sheet.trace == s.trace + [Attached(Some(p)), Detached(Some(p))]
  {
    var a := Add(s, Some(p), attachOk).sheet;
    assert a.pages == s.pages + [Some(p)];
    RemoveFirstOfAppended(s.pages, Some(p));
    assert Some(p) in a.pages by {
      assert a.pages[|s.pages|] == Some(p);
    }
  }

  /** Add does not reject a page that is already listed, so adding it a
      second time and removing it moves it: the older copy goes and the new
      one stays at the end. The list is unchanged exactly when every entry
      after the first copy is that page. */
  lemma AddListedThenRemoveMovesToEnd(s: Sheet, p: Page, attachOk: bool, detachOk: bool)
    requires Some(p) in s.pages
    requires !p.lifecycle || attachOk
    ensures Add(s, Some(p), attachOk).Done?
    ensures
      var r := Remove(Add(s, Some(p), attachOk).sheet, Some(p), detachOk);
      && r.sheet.pages == RemoveFirst(s.pages, Some(p)) + [Some(p)]
      && r.sheet.active == s.active
      && r.sheet.trace == s.trace + [Attached(Some(p)), Detached(Some(p))]
  {
    var a := Add(s, Some(p), attachOk).sheet;
    assert a.pages == s.pages + [Some(p)];
    RemoveFirstOfAppendedListed(s.pages, Some(p));
    assert Some(p) in a.pages by {
      assert a.pages[|s.pages|] == Some(p);
    }
  }

  /** Add accepts null, but Remove rejects it before looking at the list, so
      a null once added stays listed and the remove fails with nothing
      changed. */
  lemma AddNullThenRemoveKeepsIt(s: Sheet, attachOk: bool, detachOk: bool)
    ensures Add(s, None, attachOk) == Done(s.(pages := s.pages + [None], trace := s.trace + [Attached(None)]))
    ensures
      var a := Add(s, None, attachOk).sheet;
      Remove(a, None, detachOk) == Failed(ArgumentNull, a) && None in a.pages
  {
    var a := Add(s, None, attachOk).sheet;
    assert a.pages[|s.pages|] == None;
  }

  /** An instance of the above: for the list `[a, b]`, adding `a` and
      removing it gives `[b, a]`, which is not the list it started from. */
  lemma AddDuplicateThenRemoveReorders(a: Page, b: Page)
    requires a != b
    ensures
      var s := Sheet([Some(a), Some(b)], None, false, []);
      var r := Remove(Add(s, Some(a), true).sheet, Some(a), true);
      r.sheet.pages == [Some(b), Some(a)] && r.sheet.pages != s.pages
  {
    var ps := [Some(a), Some(b)];
    RemoveFirstOfAppendedListed(ps, Some(a));
    assert IndexOf(ps, Some(a)) == 0;
  }

  /** Removing the active page does not clear it: when the page was listed
      once, the active page afterwards is no longer in the list. */
  lemma RemoveActiveLeavesItUnlisted(s: Sheet, detachOk: bool)
    requires s.active.Some?
    requires multiset(s.pages)[s.active] == 1
    ensures Remove(s, s.active, detachOk).sheet.active == s.active
    ensures s.active !in Remove(s, s.active, detachOk).sheet.pages
  {
    RemoveFirstMultiset(s.pages, s.active);
    assert multiset(RemoveFirst(s.pages, s.active))[s.active] == 0;
  }

  // -------------------------------------------------------------- Show/Hide

  /** Showing the page that a completed Show made active is a no-op: no
      events, no change. */
  lemma ShowTwiceIsShowOnce(s: Sheet, index: int, op: AwaitOperation, op2: AwaitOperation,
                            fromOk: bool, toOk: bool, fromOk2: bool, toOk2: bool)
    requires Show(s, index, op, fromOk, toOk).Done?
    ensures
      var s1 := Show(s, index, op, fromOk, toOk).sheet;
      !s.running ==> Show(s1, index, op2, fromOk2, toOk2) == Done(s1)
  {
  }

  /** Show followed by Hide, nothing in flight and all hooks completing: the
      page is active in between and inactive afterwards, the list never
      changes, and the four navigation events come in order. */
  lemma ShowThenHide(s: Sheet, index: int, op: AwaitOperation, op2: AwaitOperation)
    requires !s.running && 0 <= index < |s.pages|
    requires s.pages[index].Some? && s.pages[index] != s.active
    ensures
      var page := s.pages[index];
      var s1 := Show(s, index, op, true, true).sheet;
      var s2 := Hide(s1, op2, true).sheet;
      && s1.active == page && s2.active == None && s2.pages == s.pages && !s2.running
      && s2.trace == s.trace + [Navigating(s.active, page), Navigated(s.active, page),
                                Navigating(None, page), Navigated(None, page)]
  {
  }

  // ----------------------------------------------------- overlapping calls

  /** While a Show is awaiting its hooks, any second Show or Hide under Drop
      returns without effect, under Error throws without effect, and under
      Sequential waits without effect. */
  lemma ShowInFlightGatesOthers(s: Sheet, index: int, op: AwaitOperation, other: int, op2: AwaitOperation)
    requires ShowStart(s, index, op).ShowPending?
    ensures
      var s1 := ShowStart(s, index, op).sheet;
      && s1.running
      && ShowStart(s1, other, op2) == Busy(s1, op2)
      && HideStart(s1, op2) == Busy(s1, op2)
  {
  }

  /** While a Hide is awaiting its hook the active page is already gone, so a
      second Hide throws NoActivePage whatever its policy, even Drop. */
  lemma HideInFlightFailsSecondHide(s: Sheet, op: AwaitOperation, op2: AwaitOperation)
    requires HideStart(s, op).HidePending?
    ensures
      var s1 := HideStart(s, op).sheet;
      s1.running && HideStart(s1, op2) == Failed(NoActivePage, s1)
  {
  }

  /** A Sequential Show that found a Show in flight keeps waiting until that
      one ends, then runs on the settled state; asking for the page the first
      one showed is then a no-op. */
  lemma SequentialShowRunsAfterInFlight(s: Sheet, index: int, op: AwaitOperation, other: int,
                                        fromOk: bool, toOk: bool)
    requires ShowStart(s, index, op).ShowPending?
    ensures
      var p := ShowStart(s, index, op);
      var s2 := ShowEnd(p.sheet, p.prev, fromOk, toOk).sheet;
      && ShowStart(p.sheet, other, Sequential) == Waiting(p.sheet)
      && ShowResume(p.sheet, other) == Waiting(p.sheet)
      && !s2.running && s2.active == s.pages[index]
      && ShowResume(s2, other) == ShowBegin(s2, other)
      && ShowResume(s2, index) == Done(s2)
  {
  }

  /** The active-page check of HideAsync comes before the policy and is not
      repeated after a Sequential wait: the same page-less, idle state makes a
      fresh Hide throw but makes a resumed Hide return silently with no event. */
  lemma HideResumedWithoutActivePageIsSilent(s: Sheet, op: AwaitOperation)
    requires !s.running && s.active.None?
    ensures HideStart(s, op) == Failed(NoActivePage, s)
    ensures HideResume(s) == Done(s)
  {
  }

  /** Two Sequential Hides queued behind a Show: the first to wake hides the
      page; the second then wakes to no active page and returns silently. */
  lemma SecondQueuedHideIsSilent(s: Sheet, index: int, op: AwaitOperation, fromOk: bool, toOk: bool, hideOk: bool)
    requires ShowStart(s, index, op).ShowPending?
    ensures
      var p := ShowStart(s, index, op);
      var s2 := ShowEnd(p.sheet, p.prev, fromOk, toOk).sheet;
      var h := HideResume(s2);
      var s3 := HideEnd(h.sheet, h.hidden, hideOk).sheet;
      && HideStart(p.sheet, Sequential) == Waiting(p.sheet)
      && h.HidePending? && h.hidden == s.pages[index].value
      && HideResume(s3) == Done(s3)
  {
  }

  /** ShowAsync reads the active page again when raising the navigated event.
      A RemoveAll that runs while the hooks are awaited clears it, so the
      navigated event names no current page although the navigating event
      named the shown one. */
  lemma RemoveAllDuringShowChangesNavigated(s: Sheet, index: int, op: AwaitOperation, detachOk: nat -> bool)
    requires !s.running && 0 <= index < |s.pages|
    requires s.pages[index].Some? && s.pages[index] != s.active
    ensures
      var page := s.pages[index];
      var p := ShowStart(s, index, op);
      var r := ShowEnd(RemoveAll(p.sheet, detachOk).sheet, s.active, true, true);
      && p.sheet.trace == s.trace + [Navigating(s.active, page)]
      && r.sheet.trace == s.trace + [Navigating(s.active, page)] + DetachTrace(s.pages) + [Navigated(s.active, None)]
  {
    var p := ShowStart(s, index, op);
    assert p == ShowBegin(s, index);
    var s2 := RemoveAll(p.sheet, detachOk).sheet;
    assert s2.trace == p.sheet.trace + DetachTrace(s.pages);
    assert s2.active == None;
  }

  // ------------------------------------------------------- trace invariants

  /** Every navigated event directly follows the navigating event of the same
      transition. */
  predicate Balanced(t: seq<Event>) {
    forall k :: 0 <= k < |t| && t[k].Navigated? ==> 0 < k && t[k - 1] == Navigating(t[k].prev, t[k].cur)
  }

  /** For every page, the listed entries and the detached events together
      number no more than its attached events, and the active page has an
      attached event. This is a count, not an order: it does not say that
      each attached event comes before its detached one. */
  ghost predicate Accounted(s: Sheet) {
    && (forall x: Ref :: multiset(s.pages)[x] + multiset(s.trace)[Detached(x)] <= multiset(s.trace)[Attached(x)])
    && (s.active.Some? ==> Attached(s.active) in s.trace)
  }

  /** A sheet at rest: nothing in flight and both trace invariants hold. */
  ghost predicate Quiescent(s: Sheet) {
    !s.running && Balanced(s.trace) && Accounted(s)
  }

  lemma BalancedConcat(t: seq<Event>, u: seq<Event>)
    requires Balanced(t) && Balanced(u)
    ensures Balanced(t + u)
  {
    forall k | 0 <= k < |t + u| && (t + u)[k].Navigated?
      ensures 0 < k && (t + u)[k - 1] == Navigating((t + u)[k].prev, (t + u)[k].cur)
    {
      if k >= |t| {
        assert (t + u)[k] == u[k - |t|];
      }
    }
  }

  /** The detached events of RemoveAll count each entry as often as it is
      listed, and there is no attached event among them. */
  lemma {:induction false} DetachTraceCounts(ps: seq<Ref>, x: Ref)
    ensures multiset(DetachTrace(ps))[Detached(x)] == multiset(ps)[x]
    ensures multiset(DetachTrace(ps))[Attached(x)] == 0
  {
    if |ps| > 0 {
      var rest := DetachTrace(ps[1..]);
      DetachTraceCounts(ps[1..], x);
      var m := multiset(DetachTrace(ps));
      assert m == multiset{Detached(ps[0])} + multiset(rest) by {
        assert DetachTrace(ps) == [Detached(ps[0])] + rest;
      }
      var one := if ps[0] == x then 1 else 0;
      assert multiset(ps)[x] == one + multiset(ps[1..])[x] by {
        assert ps == [ps[0]] + ps[1..];
      }
      assert m[Detached(x)] == one + multiset(rest)[Detached(x)];
      assert m[Attached(x)] == multiset(rest)[Attached(x)];
    }
  }

  lemma DetachTraceBalanced(ps: seq<Ref>)
    ensures Balanced(DetachTrace(ps))
  {
  }

  lemma AddKeepsAccounted(s: Sheet, p: Ref, attachOk: bool)
    requires Accounted(s)
    ensures Accounted(Add(s, p, attachOk).sheet)
  {
  }

  /** Taking one listed copy of a page out of the list while recording its
      detached event keeps every count matched. */
  lemma AccountedAfterDetach(s: Sheet, r: Sheet, p: Ref)
    requires Accounted(s) && p in s.pages
    requires multiset(r.pages) == multiset(s.pages) - multiset{p}
    requires r.trace == s.trace + [Detached(p)] && r.active == s.active
    ensures Accounted(r)
  {
    forall x: Ref
      ensures multiset(r.pages)[x] + multiset(r.trace)[Detached(x)] <= multiset(r.trace)[Attached(x)]
    {
      assert multiset(r.trace) == multiset(s.trace) + multiset{Detached(p)};
    }
  }

  lemma RemoveKeepsAccounted(s: Sheet, p: Ref, detachOk: bool)
    requires Accounted(s)
    ensures Accounted(Remove(s, p, detachOk).sheet)
  {
    if p.Some? && p in s.pages {
      var r := Remove(s, p, detachOk).sheet;
      RemoveFirstMultiset(s.pages, p);
      AccountedAfterDetach(s, r, p);
    }
  }

  lemma RemoveAllKeepsAccounted(s: Sheet, detachOk: nat -> bool)
    requires Accounted(s)
    ensures Accounted(RemoveAll(s, detachOk).sheet)
  {
    var r := RemoveAll(s, detachOk).sheet;
    assert r.trace == s.trace + DetachTrace(s.pages);
    forall x: Ref
      ensures multiset(r.pages)[x] + multiset(r.trace)[Detached(x)] <= multiset(r.trace)[Attached(x)]
    {
      DetachTraceCounts(s.pages, x);
    }
  }

  lemma ShowBeginKeepsAccounted(s: Sheet, index: int)
    requires Accounted(s)
    ensures Accounted(ShowBegin(s, index).sheet)
  {
    if 0 <= index < |s.pages| && s.pages[index].Some? {
      assert multiset(s.pages)[s.pages[index]] > 0;
    }
  }

  lemma ShowEndKeepsAccounted(s: Sheet, prev: Ref, fromOk: bool, toOk: bool)
    requires Accounted(s)
    ensures Accounted(ShowEnd(s, prev, fromOk, toOk).sheet)
  {
  }

  lemma HideBeginKeepsAccounted(s: Sheet)
    requires Accounted(s)
    ensures Accounted(HideBegin(s).sheet)
  {
  }

  lemma HideEndKeepsAccounted(s: Sheet, prev: Page, fromOk: bool)
    requires Accounted(s)
    ensures Accounted(HideEnd(s, prev, fromOk).sheet)
  {
  }

  /** One call of the sheet's public surface, with the outcomes of the page
      hooks it awaits. */
  datatype Call =
    | AddCall(page: Ref, attachOk: bool)
    | RemoveCall(page: Ref, detachOk: bool)
    | RemoveAllCall(detachOutcome: nat -> bool)
    | ShowCall(index: int, op: AwaitOperation, fromOk: bool, toOk: bool)
    | HideCall(op: AwaitOperation, fromOk: bool)

  /** A call run to its end with nothing interleaved. */
  function Apply(s: Sheet, c: Call): Step {
    match c
    case AddCall(p, ok) => Add(s, p, ok)
    case RemoveCall(p, ok) => Remove(s, p, ok)
    case RemoveAllCall(ok) => RemoveAll(s, ok)
    case ShowCall(i, op, f, t) => Show(s, i, op, f, t)
    case HideCall(op, f) => Hide(s, op, f)
  }

  /** Calls run one after another, each to its end, whether it returns or throws. */
  function Run(s: Sheet, calls: seq<Call>): Sheet
    decreases |calls|
  {
    if |calls| == 0 then s else Run(Apply(s, calls[0]).sheet, calls[1..])
  }

  /** Raising the navigated event right after the matching navigating event
      keeps the trace balanced. */
  lemma BalancedNavigated(t: seq<Event>, prev: Ref, cur: Ref)
    requires Balanced(t) && |t| > 0 && t[|t| - 1] == Navigating(prev, cur)
    ensures Balanced(t + [Navigated(prev, cur)])
  {
    var u := t + [Navigated(prev, cur)];
    forall k | 0 <= k < |u| && u[k].Navigated?
      ensures 0 < k && u[k - 1] == Navigating(u[k].prev, u[k].cur)
    {
      if k < |t| {
        assert u[k] == t[k] && u[k - 1] == t[k - 1];
      }
    }
  }

  lemma ShowBeginKeepsBalanced(s: Sheet, index: int)
    requires Balanced(s.trace)
    ensures Balanced(ShowBegin(s, index).sheet.trace)
    ensures ShowBegin(s, index).ShowPending? ==>
      var b := ShowBegin(s, index);
      b.sheet.trace[|b.sheet.trace| - 1] == Navigating(b.prev, b.sheet.active)
  {
    if 0 <= index < |s.pages| && s.pages[index] != s.active && s.pages[index].Some? {
      BalancedConcat(s.trace, [Navigating(s.active, s.pages[index])]);
    }
  }

  lemma ShowEndKeepsBalanced(s: Sheet, prev: Ref, fromOk: bool, toOk: bool)
    requires Balanced(s.trace) && |s.trace| > 0 && s.trace[|s.trace| - 1] == Navigating(prev, s.active)
    ensures Balanced(ShowEnd(s, prev, fromOk, toOk).sheet.trace)
  {
    BalancedNavigated(s.trace, prev, s.active);
  }

  lemma ShowKeepsQuiescent(s: Sheet, index: int, op: AwaitOperation, fromOk: bool, toOk: bool)
    requires Quiescent(s)
    ensures Quiescent(Show(s, index, op, fromOk, toOk).sheet)
  {
    var b := ShowBegin(s, index);
    ShowBeginKeepsAccounted(s, index);
    ShowBeginKeepsBalanced(s, index);
    if b.ShowPending? {
      assert Show(s, index, op, fromOk, toOk) == ShowEnd(b.sheet, b.prev, fromOk, toOk);
      ShowEndKeepsAccounted(b.sheet, b.prev, fromOk, toOk);
      ShowEndKeepsBalanced(b.sheet, b.prev, fromOk, toOk);
    } else {
      assert Show(s, index, op, fromOk, toOk) == b;
    }
  }

  lemma HideKeepsQuiescent(s: Sheet, op: AwaitOperation, fromOk: bool)
    requires Quiescent(s)
    ensures Quiescent(Hide(s, op, fromOk).sheet)
  {
    if s.active.Some? {
      var b := HideBegin(s);
      assert Hide(s, op, fromOk) == HideEnd(b.sheet, b.hidden, fromOk);
      HideBeginKeepsAccounted(s);
      HideEndKeepsAccounted(b.sheet, b.hidden, fromOk);
      BalancedConcat(s.trace, [Navigating(None, s.active)]);
      BalancedNavigated(b.sheet.trace, None, Some(b.hidden));
    }
  }

  lemma RemoveAllKeepsQuiescent(s: Sheet, detachOk: nat -> bool)
    requires Quiescent(s)
    ensures Quiescent(RemoveAll(s, detachOk).sheet)
  {
    RemoveAllKeepsAccounted(s, detachOk);
    DetachTraceBalanced(s.pages);
    BalancedConcat(s.trace, DetachTrace(s.pages));
    assert RemoveAll(s, detachOk).sheet.trace == s.trace + DetachTrace(s.pages);
  }

  lemma AddKeepsQuiescent(s: Sheet, p: Ref, attachOk: bool)
    requires Quiescent(s)
    ensures Quiescent(Add(s, p, attachOk).sheet)
  {
    AddKeepsAccounted(s, p, attachOk);
    BalancedConcat(s.trace, [Attached(p)]);
  }

  lemma RemoveKeepsQuiescent(s: Sheet, p: Ref, detachOk: bool)
    requires Quiescent(s)
    ensures Quiescent(Remove(s, p, detachOk).sheet)
  {
    RemoveKeepsAccounted(s, p, detachOk);
    BalancedConcat(s.trace, [Detached(p)]);
  }

  /** Every call run to its end on a sheet at rest leaves the sheet at rest:
      the flag is clear, every navigated event follows its navigating event,
      and lifecycle events stay matched. */
  lemma ApplyKeepsQuiescent(s: Sheet, c: Call)
    requires Quiescent(s)
    ensures Quiescent(Apply(s, c).sheet)
  {
    match c
    case AddCall(p, ok) =>
      assert Apply(s, c) == Add(s, p, ok);
      AddKeepsQuiescent(s, p, ok);
    case RemoveCall(p, ok) =>
      assert Apply(s, c) == Remove(s, p, ok);
      RemoveKeepsQuiescent(s, p, ok);
    case RemoveAllCall(ok) =>
      assert Apply(s, c) == RemoveAll(s, ok);
      RemoveAllKeepsQuiescent(s, ok);
    case ShowCall(i, op, f, t) =>
      assert Apply(s, c) == Show(s, i, op, f, t);
      ShowKeepsQuiescent(s, i, op, f, t);
    case HideCall(op, f) =>
      assert Apply(s, c) == Hide(s, op, f);
      HideKeepsQuiescent(s, op, f);
  }

  /** Any sequence of calls, each run to its end, keeps a sheet at rest; in
      particular starting from a fresh sheet. */
  lemma {:induction false} RunKeepsQuiescent(s: Sheet, calls: seq<Call>)
    requires Quiescent(s)
    ensures Quiescent(Run(s, calls))
    decreases |calls|
  {
    if |calls| > 0 {
      ApplyKeepsQuiescent(s, calls[0]);
      RunKeepsQuiescent(Apply(s, calls[0]).sheet, calls[1..]);
    }
  }

  lemma InitialIsQuiescent()
    ensures Quiescent(Initial())
  {
  }

  /** A transition overlapped by RemoveAll breaks the first trace invariant:
      its navigated event no longer repeats its navigating event. */
  lemma OverlappedShowUnbalancesTrace(a: Page)
    ensures
      var s := Sheet([Some(a)], None, false, [Attached(Some(a))]);
      var p := ShowStart(s, 0, Sequential);
      var s2 := RemoveAll(p.sheet, i => true).sheet;
      && Quiescent(s)
      && p.ShowPending?
      && !Balanced(ShowEnd(s2, p.prev, true, true).sheet.trace)
  {
    var s := Sheet([Some(a)], None, false, [Attached(Some(a))]);
    var p := ShowStart(s, 0, Sequential);
    var s2 := RemoveAll(p.sheet, i => true).sheet;
    var t := ShowEnd(s2, p.prev, true, true).sheet.trace;
    assert t == [Attached(Some(a)), Navigating(None, Some(a)), Detached(Some(a)), Navigated(None, None)];
    assert t[3].Navigated? && t[2] != Navigating(None, None);
  }
}
